=== FILE: README.md ===
# Purchase ledger of the project storefront, in Dafny

This project models the purchase flow of a Django storefront that sells downloadable engineering projects. It also models the identifier rules that flow relies on.

- **Identifier assignment.** `Project.save` turns `slugify(title)` into a unique slug. It takes the base if it is free, and otherwise takes the first free candidate among `base-1`, `base-2`, …. `Order.save` assigns `ORD-` plus twelve upper-case hex digits of a random uuid, and it does so only while the order has no identifier (`slugs.dfy`, `order_ids.dfy`, `models.dfy`).
- **The ledger.** The ledger holds the catalog of projects (active flag, price in paise, download counter) and the orders table. It also holds the payment transaction log, whose transaction ids are unique, and the download log. Both logs are append-only (`models.dfy`).
- **The three requests.** `create_order`, `verify_payment` and `download_project` are modelled as pure transitions that return a result and the new ledger. The "has a completed order" query behind the project page and the dashboard is modelled too (`views.dfy`).
- **Properties.** `purchase_properties.dfy` relates the outcome of a request to the ledger it started from, and chains requests. `runs.dfy` shows that every run of requests keeps the database constraints and the log invariants, and that it only extends the ledger.

The model follows the code as written:

- Verification overwrites the order's status with `completed`. It does not check the current status, so a `failed` or `refunded` order becomes `completed` too.
- The order is written before the transaction log insert, and there is no atomic block. If the payment id is already logged, the insert fails, but the order stays written and completed. No log entry is added and no counter is bumped (`VerifyPaymentHalfApplied`).
- The lookup by gateway order id is not unique-keyed. No match is "order not found". More than one match is a generic failure. Neither changes anything.
- The counter bump saves the project through `Project.save` again. A project stored with an empty slug (a title that `slugify` maps to the empty string) therefore receives its first free slug at that point (`Models.SaveCounter`).

## Model

| member | source | states |
|---|---|---|
| Slugs.ParseDecimalOfDecimal | core/models.py:60 | Reading back `str(counter)` gives the counter, so the suffix rendering is a round trip |
| Slugs.DecimalInjective | core/models.py:60 | Different counters render as different decimal strings |
| Slugs.SuffixedInjective | core/models.py:60 | `base-j` equals `base-k` only when j = k, and no candidate equals the base itself |
| Slugs.ProbedSize | core/models.py:57-61 | The base and the candidates `base-1` … `base-(k-1)` tried before candidate k are k different slugs |
| Slugs.ProbedBound | core/models.py:58-61 | While the base and every candidate below k are taken, k is at most the number of taken slugs: the bound that makes the loop terminate |
| Slugs.FirstFreeSuffix | core/models.py:57-61 | The returned counter r is free, every candidate below it is taken, and r is at most the number of taken slugs |
| Slugs.LeastFreeUnique | core/models.py:57-61 | At most one counter is free while every smaller candidate is taken, so the disambiguated slug is determined |
| Slugs.AssignSlug | core/models.py:53-61 | A non-empty slug is kept. An empty slug becomes the base if it is free. Otherwise it becomes `base-k` for the least k whose candidate is free, with every `base-j` for j < k taken. The result is never among the taken slugs |
| Slugs.DisambiguateSlug | core/models.py:55-61 | The `while … exists()` loop yields the slug AssignSlug describes. Its counter stays at most the number of taken slugs plus one |
| OrderIds.NewOrderId | core/models.py:93 | The id is `ORD-` followed by exactly 12 characters from 0-9A-F. Lower-casing those digits gives back the first 12 digits of the uuid |
| OrderIds.NewOrderIdCollision | core/models.py:93 | Two generated ids coincide exactly when the two uuids agree on their first 12 digits |
| Models.SaveOrder | core/models.py:91-94 | An order with an id is saved unchanged. An order without one gets a well-formed id. No other field changes |
| Models.SaveOrderStable | core/models.py:92-94 | After the first save the id is non-empty, and any later save, with any random input, leaves the order unchanged |
| Models.SaveProject | core/models.py:53-62 | An empty slug always saves, and gets a slug that no project in the catalog holds: `slugify(title)` when that is free, otherwise `base-k` with the base and every `base-j` for j < k taken. An explicit slug is kept, and it fails only when another project holds it. Other projects are untouched. Unique slugs stay unique |
| Models.SaveCounter | core/views.py:183-184 | The project's counter rises by exactly one and nothing else about it changes except the slug. A non-empty slug is kept, and an empty slug becomes one that no project held. Other projects are untouched and unique slugs stay unique. The result is exactly what `Project.save` stores for the bumped project |
| Views.CreateOrder | core/views.py:99-144 | A missing or inactive project fails with not-found. An existing completed order of the requester fails with already-purchased. A gateway failure fails with a gateway error. A generated order id that is already stored fails with a duplicate-id error (the unique constraint on `order_id`). Success happens exactly when none of these does. Every failure leaves the ledger unchanged. Success appends exactly one `pending` order: the requester, the project, amount = price, the gateway's id, and the order id `Order.save` generates from the uuid. The gateway is asked for the price in paise, in INR. Both invariants are preserved |
| Views.RecordPayment | core/views.py:168-184 | The order row gets the payment id and the signature and becomes `completed`, whatever its status was. Its terms are kept. The log insert fails exactly when the payment id is already logged, and then the log and the catalog are unchanged. On success exactly one entry is logged under the payment id, and the project is re-saved with its counter raised as `Models.SaveCounter` states |
| Views.VerifyPayment | core/views.py:147-202 | A bad signature changes nothing. Order-not-found happens exactly when the signature is good and no order has that gateway id. Every failure except a duplicate transaction changes nothing, and no failure touches the log or the catalog. The download log, the table size and each order's terms are kept. Completed orders stay completed. The log only grows. In the catalog, counters only rise, and the only slug that can change is an empty one |
| Views.DownloadProject | core/views.py:220-236 | Without a completed order of the requester with that id, the result is not-entitled and nothing changes. With one (under the unique order ids), it succeeds. Success appends exactly one download record (requester, the order's project, the order) and serves that project |
| Views.Dashboard | core/views.py:240-246 | A row is listed exactly when its order belongs to the requester and is `completed`. Each row is listed once, in table order |
| PurchaseProperties.VerifyPaymentCompletes | core/views.py:165-184 | With a good signature, exactly one matching order and an unlogged payment id: the order is paid and completed, and exactly one transaction is logged (payment id, order amount, INR, `success`). The project is re-saved with its counter raised (`Models.SaveCounter`). Nothing else changes |
| PurchaseProperties.VerifyPaymentBumpsCounter | core/views.py:183-184 | In the same situation, the paid project's counter rises by exactly 1. Its slug is kept when non-empty, and an empty slug becomes the first free `slugify(title)` candidate, one that no project held. No other project changes |
| PurchaseProperties.VerifyPaymentHalfApplied | core/views.py:167-180 | With a payment id already logged, the result is a duplicate-transaction failure. The order is still overwritten as completed and now entitles its owner to the download. The log and the counters are unchanged |
| PurchaseProperties.VerifyPaymentAmbiguous | core/views.py:167-200 | Two orders carrying the gateway order id make the lookup fail, and nothing changes |
| PurchaseProperties.VerifiedOrder | core/views.py:165-171 | A successful verification had a good signature, exactly one matching order and an unlogged payment id |
| PurchaseProperties.ReplayedCallbackRejected | core/views.py:165-180 | Replaying a verified callback fails at the unique transaction insert and leaves the ledger exactly as the first verification left it |
| PurchaseProperties.PaymentGrantsEntitlement | core/views.py:106-223 | After a successful verification the buyer holds a completed purchase. The download gate admits them for that order. A new order for the same project is refused |
| PurchaseProperties.PurchasedIffOnDashboard | core/views.py:76-83 | The project page's "purchased" flag is set exactly when the dashboard lists a completed order of that project |
| PurchaseProperties.DashboardOrdersDownloadable | core/views.py:223-242 | Every order on the dashboard can be downloaded by its owner |
| PurchaseProperties.ScenarioCheckout | core/views.py:117-130 | A project priced 49900 paise (499.00 rupees; prices are held in paise, so no conversion is exercised) is quoted to the gateway for 49900 paise, and one pending order is stored |
| PurchaseProperties.ScenarioPayment | core/views.py:165-184 | The correctly signed callback for that order completes it and moves the counter from 0 to 1 |
| PurchaseProperties.CheckoutScenario | core/views.py:117-184 | The two halves of the 49900-paise example chained: checkout, then verification |
| Runs.Step | core/views.py:99-236 | Any request keeps the database constraints and the log invariants. The ledger it leaves extends the one before: the logs and the order table only grow, orders keep their terms and stay completed, counters only rise, and only an empty slug can change |
| Runs.RunPreservesLedger | core/views.py:99-236 | For any run of requests: order ids, transaction ids and slugs stay unique, foreign keys hold, and every logged payment and download belongs to a completed order. The ledger reached extends the start ledger: the logs only grow, orders keep their terms and stay completed, counters only rise, and only an empty slug can change |

The invariants used above are defined in `models.dfy`:

- `Valid` is what the stored rows always satisfy. The database enforces the unique constraints on slug, order id and transaction id, and the foreign keys. `Valid` also requires every order id to be non-empty: the database does not enforce that (`order_id` may be blank), but `Order.save` assigns an id on every insert.
- `Consistent` is what the flow keeps true: every logged payment is for a completed order and records that order's amount, and every download was made by the owner of a completed order for that order's project.

## Left out

- `slugify`: a parameter of `SaveProject`. Its transliteration rules are not modelled.
- The 250-character limit on slugs is not modelled.
- `uuid4()` randomness: an input, namely any string of 32 lower-case hex digits.
- The Razorpay client: an opaque function from the request (amount, currency, capture flag) to a gateway order id or a failure.
- HMAC-SHA256: an opaque signing function, compared by string equality. The hash itself is not modelled.
- `int(float(price) * 100)`: prices are held as integer paise, so the conversion is the identity. The float truncation, which can lose a paisa, is not modelled.
- Email confirmation: best-effort, with exceptions swallowed, so it is a no-op.
- File streaming and the client IP address. The source appends the download record before it opens the file, so a missing file would still leave a record. File access is not modelled.
- JSON parsing of the callback: fields are strings. A missing field (which Python reads as `None`) is not modelled.
- The raw gateway payload stored with each transaction (`razorpay_response`) is not modelled.
- Timestamps and the `-created_at` ordering of query results are not modelled.
- HTTP method checks, status codes, login and registration, templates, messages and redirects are not modelled.
- Catalog search, filtering and pagination are not modelled.
- Custom project requests and user profiles are outside the purchase flow.
- Admin edits are not modelled. The admin form can set `failed` or `refunded`, and it can also change an order's user, project and amount, which would break `SameTerms` and the amount clause of `Consistent`. Both are properties of the purchase flow alone.
- The database width of `Project.downloads` (an IntegerField) is not modelled. The counter is unbounded; its overflow limit depends on the database backend.
- Concurrency: each request is one sequential step, since the code uses no transactions or locks.
- Views.VerifyPayment: requires `Valid`. The foreign keys make the order's project exist when its counter is bumped; a dangling reference cannot arise under the foreign key with cascading delete. The non-empty order ids make the `order.save()` of the written order keep its id. That save re-runs the id rule, so an order stored without an id would receive a fresh `ORD-` id there. Such an order cannot arise, because `Order.save` assigns the id on insert.
- Views.DownloadProject: success for an entitled requester is stated only under unique order ids. Without them, the `get` would match several orders and fail.

=== FILE: models.dfy ===
/**
 The records of core/models.py that the purchase flow touches, the ledger
 they form, and the two save hooks: slug assignment for a Project and
 identifier assignment for an Order.

 Money is held in paise (integer minor units of INR). The orders table is a
 sequence in insertion order; a foreign key to an order is its row index.
 */
module Models {
  import opened Results
  import Slugs
  import OrderIds

  type UserId = nat
  type ProjectId = nat

  /** A catalog entry. `price` is in paise; `downloads` counts verified payments. */
  datatype Project = Project(
    title: string,
    slug: string,
    price: nat,
    active: bool,
    downloads: int)

  /** A freshly constructed Project: active, with no downloads yet. */
  function NewProject(title: string, slug: string, price: nat): Project
  {
    Project(title, slug, price, true, 0)
  }

  /** The four values of `Order.status`. */
  datatype Status = Pending | Completed | Failed | Refunded

  datatype Order = Order(
    orderId: string,
    user: UserId,
    project: ProjectId,
    amount: nat,
    status: Status,
    razorpayOrderId: string,
    razorpayPaymentId: string,
    razorpaySignature: string)

  /** A row of the payment transaction log; `order` is the order's row index. */
  datatype Transaction = Transaction(
    transactionId: string,
    order: nat,
    amount: nat,
    currency: string,
    paymentMethod: string,
    status: string)

  /** A row of the download log; `order` is the order's row index. */
  datatype Download = Download(user: UserId, project: ProjectId, order: nat)

  datatype Ledger = Ledger(
    projects: map<ProjectId, Project>,
    orders: seq<Order>,
    transactions: seq<Transaction>,
    downloads: seq<Download>)

  /** A freshly constructed Order, before its first save: no identifier yet,
      status at its default `pending`, no payment details. */
  function NewOrder(user: UserId, project: ProjectId, amount: nat, razorpayOrderId: string): Order
  {
    Order("", user, project, amount, Pending, razorpayOrderId, "", "")
  }

  /** `Order.save`: an order without an identifier gets a generated one; an
      order that has one keeps it, and nothing else is touched. */
  function SaveOrder(o: Order, uuidHex: string): (saved: Order)
    requires OrderIds.IsUuidHex(uuidHex)
    ensures o.orderId != "" ==> saved == o
    ensures o.orderId == "" ==> OrderIds.WellFormed(saved.orderId)
    ensures saved == o.(orderId := saved.orderId)
  {
    if o.orderId == "" then o.(orderId := OrderIds.NewOrderId(uuidHex)) else o
  }

  /** Saving again, with any other random input, never changes an order. */
  lemma SaveOrderStable(o: Order, h1: string, h2: string)
    requires OrderIds.IsUuidHex(h1) && OrderIds.IsUuidHex(h2)
    ensures SaveOrder(SaveOrder(o, h1), h2) == SaveOrder(o, h1)
    ensures SaveOrder(o, h1).orderId != ""
  {
  }

  /** The slugs present in the catalog. */
  function SlugsOf(catalog: map<ProjectId, Project>): set<string>
  {
    set q | q in catalog :: catalog[q].slug
  }

  /** The database's unique constraint on `Project.slug`. */
  predicate UniqueSlugs(catalog: map<ProjectId, Project>)
  {
    forall p, q :: p in catalog && q in catalog && p != q ==> catalog[p].slug != catalog[q].slug
  }

  datatype SaveError = DuplicateSlug

  /** `Project.save` for project `id` (new or already stored): the slug rule,
      then the write, which the unique constraint on slugs rejects when an
      explicitly given slug belongs to another project. */
  function SaveProject(catalog: map<ProjectId, Project>, id: ProjectId, p: Project, slugify: string -> string)
    : (r: Result<map<ProjectId, Project>, SaveError>)
    ensures p.slug == "" ==> r.Success?
    ensures r.Failure? <==> exists q :: q in catalog && q != id && catalog[q].slug == p.slug != ""
    ensures r.Success? ==>
      && r.value.Keys == catalog.Keys + {id}
      && r.value[id] == p.(slug := r.value[id].slug)
      && (forall q :: q in catalog && q != id ==> r.value[q] == catalog[q])
    ensures r.Success? && p.slug != "" ==> r.value[id].slug == p.slug
    ensures r.Success? && p.slug == "" ==> r.value[id].slug !in SlugsOf(catalog)
    ensures r.Success? && p.slug == "" && slugify(p.title) !in SlugsOf(catalog) ==>
      r.value[id].slug == slugify(p.title)
    ensures r.Success? && p.slug == "" && slugify(p.title) in SlugsOf(catalog) ==>
      exists k :: 1 <= k <= |SlugsOf(catalog)|
        && r.value[id].slug == Slugs.Suffixed(slugify(p.title), k)
        && Slugs.ProbedTaken(slugify(p.title), k, SlugsOf(catalog))
    ensures r.Success? && UniqueSlugs(catalog) ==> UniqueSlugs(r.value)
  {
    var slug := Slugs.AssignSlug(p.slug, slugify(p.title), SlugsOf(catalog));
    if exists q :: q in catalog && q != id && catalog[q].slug == slug then
      Failure(DuplicateSlug)
    else
      Success(catalog[id := p.(slug := slug)])
  }

  /** Indices, in table order, of the rows a query's filter keeps. */
  function Filter<T>(rows: seq<T>, keep: T -> bool): (hits: seq<nat>)
    ensures forall n :: 0 <= n < |hits| ==> hits[n] < |rows| && keep(rows[hits[n]])
    ensures forall i :: 0 <= i < |rows| && keep(rows[i]) ==> i in hits
    ensures forall m, n :: 0 <= m < n < |hits| ==> hits[m] < hits[n]
  {
    if rows == [] then []
    else
      var rest := Filter(rows[..|rows| - 1], keep);
      if keep(rows[|rows| - 1]) then rest + [|rows| - 1] else rest
  }

  /** A filter that keeps no row finds nothing. */
  lemma {:induction false} FilterNone<T>(rows: seq<T>, keep: T -> bool)
    requires forall j :: 0 <= j < |rows| ==> !keep(rows[j])
    ensures Filter(rows, keep) == []
  {
    if rows != [] {
      FilterNone(rows[..|rows| - 1], keep);
    }
  }

  /** A filter that keeps exactly one row finds exactly that row. */
  lemma {:induction false} FilterSingle<T>(rows: seq<T>, keep: T -> bool, i: nat)
    requires i < |rows| && keep(rows[i])
    requires forall j :: 0 <= j < |rows| && j != i ==> !keep(rows[j])
    ensures Filter(rows, keep) == [i]
  {
    var init := rows[..|rows| - 1];
    if i == |rows| - 1 {
      FilterNone(init, keep);
    } else {
      FilterSingle(init, keep, i);
    }
  }

  /** A filter that keeps two different rows finds more than one. */
  lemma FilterSeveral<T>(rows: seq<T>, keep: T -> bool, i: nat, j: nat)
    requires i < |rows| && j < |rows| && i != j && keep(rows[i]) && keep(rows[j])
    ensures |Filter(rows, keep)| > 1
  {
    var hits := Filter(rows, keep);
    assert i in hits && j in hits;
  }

  /** Order identifiers are assigned (by `Order.save`) and unique (unique constraint on `order_id`). */
  predicate UniqueOrderIds(orders: seq<Order>)
  {
    && (forall i :: 0 <= i < |orders| ==> orders[i].orderId != "")
    && (forall i, j :: 0 <= i < j < |orders| ==> orders[i].orderId != orders[j].orderId)
  }

  /** Unique constraint on `PaymentTransaction.transaction_id`. */
  predicate UniqueTransactionIds(log: seq<Transaction>)
  {
    forall m, n :: 0 <= m < n < |log| ==> log[m].transactionId != log[n].transactionId
  }

  /** Whether a transaction with this id is already in the log. */
  predicate Logged(log: seq<Transaction>, transactionId: string)
  {
    exists n :: 0 <= n < |log| && log[n].transactionId == transactionId
  }

  /** From `before` to `after` the catalog keeps its projects, download
      counters only rise, a project stored with an empty slug may receive one,
      and nothing else about a project changes. */
  predicate CatalogAdvances(before: map<ProjectId, Project>, after: map<ProjectId, Project>)
  {
    && before.Keys == after.Keys
    && forall p :: p in before ==>
         && after[p].(downloads := before[p].downloads, slug := before[p].slug) == before[p]
         && before[p].downloads <= after[p].downloads
         && (before[p].slug != "" ==> after[p].slug == before[p].slug)
  }

  /** `project.downloads += 1; project.save()` for a stored project: the
      counter goes up by one and the row is written back through
      `Project.save`, whose slug rule gives a project stored with an empty
      slug its first free slug. */
  function SaveCounter(catalog: map<ProjectId, Project>, id: ProjectId, slugify: string -> string)
    : (c: map<ProjectId, Project>)
    requires id in catalog
    ensures c.Keys == catalog.Keys
    ensures forall q :: q in catalog && q != id ==> c[q] == catalog[q]
    ensures c[id].downloads == catalog[id].downloads + 1
    ensures c[id].(downloads := catalog[id].downloads, slug := catalog[id].slug) == catalog[id]
    ensures catalog[id].slug != "" ==> c[id].slug == catalog[id].slug
    ensures catalog[id].slug == "" ==> c[id].slug != "" && c[id].slug !in SlugsOf(catalog)
    ensures CatalogAdvances(catalog, c)
    ensures UniqueSlugs(catalog) ==> UniqueSlugs(c)
    ensures UniqueSlugs(catalog) ==>
      SaveProject(catalog, id, catalog[id].(downloads := catalog[id].downloads + 1), slugify) == Success(c)
  {
    var p := catalog[id];
    var slug := Slugs.AssignSlug(p.slug, slugify(p.title), SlugsOf(catalog));
    assert p.slug in SlugsOf(catalog);
    catalog[id := p.(downloads := p.downloads + 1, slug := slug)]
  }

  /** What the stored rows always satisfy: the database's unique constraints
      and foreign keys, and non-empty order identifiers, which `Order.save`
      assigns on every insert. */
  predicate Valid(l: Ledger)
  {
    && UniqueSlugs(l.projects)
    && UniqueOrderIds(l.orders)
    && UniqueTransactionIds(l.transactions)
    && (forall i :: 0 <= i < |l.orders| ==> l.orders[i].project in l.projects)
    && (forall n :: 0 <= n < |l.transactions| ==> l.transactions[n].order < |l.orders|)
    && (forall n :: 0 <= n < |l.downloads| ==>
          l.downloads[n].order < |l.orders| && l.downloads[n].project in l.projects)
  }

  /** What the purchase flow keeps true of the logs: every logged payment
      belongs to a completed order and records that order's amount, and every
      download was of a completed order, by its owner, of its project. */
  predicate Consistent(l: Ledger)
  {
    && (forall n :: 0 <= n < |l.transactions| ==>
          var t := l.transactions[n];
          t.order < |l.orders| && l.orders[t.order].status == Completed && l.orders[t.order].amount == t.amount)
    && (forall n :: 0 <= n < |l.downloads| ==>
          var d := l.downloads[n];
          && d.order < |l.orders|
          && l.orders[d.order].status == Completed
          && l.orders[d.order].user == d.user
          && l.orders[d.order].project == d.project)
  }

  /** Rewriting order row `i` with the same terms and a status that is
      `completed` (or unchanged) keeps both invariants. */
  lemma WriteOrderKeeps(l: Ledger, i: nat, o: Order)
    requires i < |l.orders|
    requires o.orderId == l.orders[i].orderId && o.project == l.orders[i].project
    requires o.user == l.orders[i].user && o.amount == l.orders[i].amount
    requires o.status == Completed || o.status == l.orders[i].status
    ensures Valid(l) ==> Valid(l.(orders := l.orders[i := o]))
    ensures Consistent(l) ==> Consistent(l.(orders := l.orders[i := o]))
  {
  }

  /** Logging a payment under a fresh transaction id for a completed order,
      with that order's amount, keeps both invariants. */
  lemma AppendTransactionKeeps(l: Ledger, t: Transaction)
    requires t.order < |l.orders| && !Logged(l.transactions, t.transactionId)
    ensures Valid(l) ==> Valid(l.(transactions := l.transactions + [t]))
    ensures Consistent(l) && l.orders[t.order].status == Completed && l.orders[t.order].amount == t.amount ==>
      Consistent(l.(transactions := l.transactions + [t]))
  {
  }

  /** Raising a project's download counter through `Project.save` keeps
      both invariants. */
  lemma BumpCounterKeeps(l: Ledger, p: ProjectId, slugify: string -> string)
    requires p in l.projects
    ensures var bumped := l.(projects := SaveCounter(l.projects, p, slugify));
      && (Valid(l) ==> Valid(bumped))
      && (Consistent(l) ==> Consistent(bumped))
  {
  }

  /** Logging a download of order row `d.order`'s project keeps the database
      constraints, and keeps the log invariants when the order is completed
      and belongs to the downloader. */
  lemma AppendDownloadKeeps(l: Ledger, d: Download)
    requires d.order < |l.orders| && l.orders[d.order].project == d.project
    ensures Valid(l) ==> Valid(l.(downloads := l.downloads + [d]))
    ensures Consistent(l) && l.orders[d.order].status == Completed && l.orders[d.order].user == d.user ==>
      Consistent(l.(downloads := l.downloads + [d]))
  {
  }
}

=== FILE: order_ids.dfy ===
/**
 The public order identifier `Order.save` generates (core/models.py):
 `"ORD-"` followed by the first twelve digits of a random `uuid4().hex`,
 upper-cased. The randomness is an input: any 32-digit lower-case hex string.
 */
module OrderIds {

  const Prefix: string := "ORD-"

  /** How many hex digits of the uuid the identifier keeps. */
  const HexDigits: nat := 12

  predicate IsLowerHex(c: char)
  {
    '0' <= c <= '9' || 'a' <= c <= 'f'
  }

  predicate IsUpperHex(c: char)
  {
    '0' <= c <= '9' || 'A' <= c <= 'F'
  }

  /** What `uuid.uuid4().hex` returns: 32 lower-case hex digits. */
  predicate IsUuidHex(h: string)
  {
    |h| == 32 && forall i :: 0 <= i < |h| ==> IsLowerHex(h[i])
  }

  /** Python's `str.upper` on ASCII letters; other characters are unchanged. */
  function UpperChar(c: char): char
  {
    if 'a' <= c <= 'z' then (c as int - 32) as char else c
  }

  function LowerChar(c: char): char
  {
    if 'A' <= c <= 'Z' then (c as int + 32) as char else c
  }

  function Upper(s: string): string
  {
    seq(|s|, i requires 0 <= i < |s| => UpperChar(s[i]))
  }

  function Lower(s: string): string
  {
    seq(|s|, i requires 0 <= i < |s| => LowerChar(s[i]))
  }

  /** The shape every generated identifier has: the prefix, then exactly twelve
      characters from 0-9A-F. */
  predicate WellFormed(id: string)
  {
    && |id| == |Prefix| + HexDigits
    && id[..|Prefix|] == Prefix
    && forall i :: |Prefix| <= i < |id| ==> IsUpperHex(id[i])
  }

  /** `f"ORD-{uuid.uuid4().hex[:12].upper()}"`. The identifier is well formed,
      and lower-casing its digits gives back the uuid digits it was made from,
      so different uuid prefixes never give the same identifier. */
  function NewOrderId(uuidHex: string): (id: string)
    requires IsUuidHex(uuidHex)
    ensures WellFormed(id)
    ensures Lower(id[|Prefix|..]) == uuidHex[..HexDigits]
  {
    var digits := Upper(uuidHex[..HexDigits]);
    assert forall i :: 0 <= i < HexDigits ==> LowerChar(digits[i]) == uuidHex[i];
    Prefix + digits
  }

  /** Two generated identifiers coincide exactly when the uuids agree on their
      first twelve digits. */
  lemma NewOrderIdCollision(h1: string, h2: string)
    requires IsUuidHex(h1) && IsUuidHex(h2)
    ensures NewOrderId(h1) == NewOrderId(h2) <==> h1[..HexDigits] == h2[..HexDigits]
  {
    var id1, id2 := NewOrderId(h1), NewOrderId(h2);
    if id1 == id2 {
      assert id1[|Prefix|..] == id2[|Prefix|..];
    }
  }
}

=== FILE: purchase_properties.dfy ===
/**
 Properties of the purchase flow that relate the outcome of a request to the
 ledger it starts from, or that chain several requests.
 */
module PurchaseProperties {
  import opened Results
  import opened Models
  import opened Views
  import OrderIds
  import Slugs

  /** A valid signature and exactly one order carrying the callback's gateway
      order id, with a payment id not yet logged: the order is paid and
      completed whatever its previous status, exactly one transaction is
      logged for it, its project is saved again with its counter raised (see
      `SaveCounter` and `VerifyPaymentBumpsCounter`), and nothing else
      changes. */
  lemma VerifyPaymentCompletes(l: Ledger, secret: string, data: Callback, sign: (string, string) -> string, slugify: string -> string, i: nat)
    requires Valid(l)
    requires SignatureValid(secret, data, sign)
    requires i < |l.orders| && l.orders[i].razorpayOrderId == data.razorpayOrderId
    requires forall j :: 0 <= j < |l.orders| && j != i ==> l.orders[j].razorpayOrderId != data.razorpayOrderId
    requires !Logged(l.transactions, data.razorpayPaymentId)
    ensures var r := VerifyPayment(l, secret, data, sign, slugify);
            var o := l.orders[i];
            && r.result == Success(o.orderId)
            && r.ledger.orders == l.orders[i := Paid(o, data)]
            && r.ledger.transactions == l.transactions + [Transaction(data.razorpayPaymentId, i, o.amount, Currency, "", PaymentSucceeded)]
            && r.ledger.projects == SaveCounter(l.projects, o.project, slugify)
            && r.ledger.downloads == l.downloads
  {
    FilterSingle(l.orders, WithRemoteId(data.razorpayOrderId), i);
  }

  /** In the same situation, the paid project's counter goes up by exactly
      one; its slug stays when it has one, and an empty slug becomes one that
      no project held. */
  lemma VerifyPaymentBumpsCounter(l: Ledger, secret: string, data: Callback, sign: (string, string) -> string, slugify: string -> string, i: nat)
    requires Valid(l)
    requires SignatureValid(secret, data, sign)
    requires i < |l.orders| && l.orders[i].razorpayOrderId == data.razorpayOrderId
    requires forall j :: 0 <= j < |l.orders| && j != i ==> l.orders[j].razorpayOrderId != data.razorpayOrderId
    requires !Logged(l.transactions, data.razorpayPaymentId)
    ensures var after := VerifyPayment(l, secret, data, sign, slugify).ledger.projects;
            var p := l.projects[l.orders[i].project];
            && after[l.orders[i].project].downloads == p.downloads + 1
            && (p.slug != "" ==> after[l.orders[i].project].slug == p.slug)
            && (p.slug == "" ==> after[l.orders[i].project].slug != "" && after[l.orders[i].project].slug !in SlugsOf(l.projects))
            && after == l.projects[l.orders[i].project := p.(downloads := p.downloads + 1,
                          slug := Slugs.AssignSlug(p.slug, slugify(p.title), SlugsOf(l.projects)))]
  {
    FilterSingle(l.orders, WithRemoteId(data.razorpayOrderId), i);
  }

  /** As written, the order write precedes the log insert and nothing rolls
      it back: when the payment id is already logged, the matching order is
      still overwritten and completed, and so entitles its owner to the
      download, while the log and every counter stay as they were. */
  lemma VerifyPaymentHalfApplied(l: Ledger, secret: string, data: Callback, sign: (string, string) -> string, slugify: string -> string, i: nat)
    requires Valid(l)
    requires SignatureValid(secret, data, sign)
    requires i < |l.orders| && l.orders[i].razorpayOrderId == data.razorpayOrderId
    requires forall j :: 0 <= j < |l.orders| && j != i ==> l.orders[j].razorpayOrderId != data.razorpayOrderId
    requires Logged(l.transactions, data.razorpayPaymentId)
    ensures var r := VerifyPayment(l, secret, data, sign, slugify);
            && r.result == Failure(DuplicateTransaction)
            && r.ledger == l.(orders := l.orders[i := Paid(l.orders[i], data)])
            && Entitled(r.ledger, l.orders[i].user, l.orders[i].orderId)
  {
    FilterSingle(l.orders, WithRemoteId(data.razorpayOrderId), i);
    var r := VerifyPayment(l, secret, data, sign, slugify);
    assert Entitles(r.ledger.orders[i], l.orders[i].user, l.orders[i].orderId);
  }

  /** Two orders carrying the callback's gateway order id: the lookup fails
      and nothing changes. */
  lemma VerifyPaymentAmbiguous(l: Ledger, secret: string, data: Callback, sign: (string, string) -> string, slugify: string -> string, i: nat, j: nat)
    requires Valid(l)
    requires SignatureValid(secret, data, sign)
    requires i < |l.orders| && j < |l.orders| && i != j
    requires l.orders[i].razorpayOrderId == data.razorpayOrderId == l.orders[j].razorpayOrderId
    ensures VerifyPayment(l, secret, data, sign, slugify) == Outcome(Failure(MultipleOrders), l)
  {
    FilterSeveral(l.orders, WithRemoteId(data.razorpayOrderId), i, j);
  }

  /** The index of the order a successful verification completed. */
  lemma VerifiedOrder(l: Ledger, secret: string, data: Callback, sign: (string, string) -> string, slugify: string -> string) returns (i: nat)
    requires Valid(l)
    requires VerifyPayment(l, secret, data, sign, slugify).result.Success?
    ensures SignatureValid(secret, data, sign)
    ensures i < |l.orders| && l.orders[i].razorpayOrderId == data.razorpayOrderId
    ensures forall j :: 0 <= j < |l.orders| && j != i ==> l.orders[j].razorpayOrderId != data.razorpayOrderId
    ensures !Logged(l.transactions, data.razorpayPaymentId)
  {
    var hits := Filter(l.orders, WithRemoteId(data.razorpayOrderId));
    i := hits[0];
  }

  /** Replaying a callback that was already verified is rejected at the log
      insert, and since the order write repeats the same values, the ledger
      stays exactly as the first verification left it. */
  lemma ReplayedCallbackRejected(l: Ledger, secret: string, data: Callback, sign: (string, string) -> string, slugify: string -> string)
    requires Valid(l)
    requires VerifyPayment(l, secret, data, sign, slugify).result.Success?
    ensures var first := VerifyPayment(l, secret, data, sign, slugify).ledger;
            VerifyPayment(first, secret, data, sign, slugify) == Outcome(Failure(DuplicateTransaction), first)
  {
    var i := VerifiedOrder(l, secret, data, sign, slugify);
    VerifyPaymentCompletes(l, secret, data, sign, slugify, i);
    var first := VerifyPayment(l, secret, data, sign, slugify).ledger;
    assert first.transactions[|l.transactions|].transactionId == data.razorpayPaymentId;
    VerifyPaymentHalfApplied(first, secret, data, sign, slugify, i);
    assert first.orders[i := Paid(first.orders[i], data)] == first.orders;
  }

  /** A verified payment grants entitlement: the buyer now holds a completed
      purchase of the project, the download gate admits them, and a new order
      for the same project is refused. */
  lemma PaymentGrantsEntitlement(l: Ledger, secret: string, data: Callback, sign: (string, string) -> string, slugify: string -> string,
                                 gateway: GatewayRequest -> Option<string>, uuidHex: string)
    requires Valid(l)
    requires OrderIds.IsUuidHex(uuidHex)
    requires VerifyPayment(l, secret, data, sign, slugify).result.Success?
    ensures var after := VerifyPayment(l, secret, data, sign, slugify).ledger;
            var o := VerifyPayment(l, secret, data, sign, slugify).result.value;
            exists i :: 0 <= i < |l.orders| && l.orders[i].orderId == o
              && HasPurchased(after, l.orders[i].user, l.orders[i].project)
              && DownloadProject(after, l.orders[i].user, o).result == Success(l.orders[i].project)
              && CreateOrder(after, l.orders[i].user, l.orders[i].project, gateway, uuidHex).result.Failure?
  {
    var i := VerifiedOrder(l, secret, data, sign, slugify);
    VerifyPaymentCompletes(l, secret, data, sign, slugify, i);
    var after := VerifyPayment(l, secret, data, sign, slugify).ledger;
    var o := l.orders[i];
    assert IsPurchase(after.orders[i], o.user, o.project);
    assert Entitles(after.orders[i], o.user, o.orderId);
    FilterSingle(after.orders, EntitlingTo(o.user, o.orderId), i);
  }

  /** A completed purchase is what both `project_detail_view` and
      `dashboard_view` show: the project page says "purchased" exactly when
      the dashboard lists an order of that project. */
  lemma PurchasedIffOnDashboard(l: Ledger, user: UserId, project: ProjectId)
    ensures HasPurchased(l, user, project) <==>
      exists n :: 0 <= n < |Dashboard(l, user)| && l.orders[Dashboard(l, user)[n]].project == project
  {
    var rows := Dashboard(l, user);
    if HasPurchased(l, user, project) {
      var i :| 0 <= i < |l.orders| && IsPurchase(l.orders[i], user, project);
      assert i in rows;
    }
  }

  /** Every order the dashboard lists can be downloaded by its owner. */
  lemma DashboardOrdersDownloadable(l: Ledger, user: UserId, n: nat)
    requires Valid(l)
    requires n < |Dashboard(l, user)|
    ensures var i := Dashboard(l, user)[n];
            DownloadProject(l, user, l.orders[i].orderId).result == Success(l.orders[i].project)
  {
    var i := Dashboard(l, user)[n];
    assert i in Dashboard(l, user);
    assert Entitles(l.orders[i], user, l.orders[i].orderId);
  }

  const ScenarioUuid: string := "0123456789abcdef0123456789abcdef"

  /** A catalog with one active project priced 49900 paise (499.00 rupees), and nothing sold. */
  function ScenarioLedger(): Ledger
  {
    Ledger(map[1 := NewProject("Smart Attendance", "smart-attendance", 49900)], [], [], [])
  }

  /** A gateway that opens order `order_A` when asked for 49900 paise. */
  function ScenarioGateway(q: GatewayRequest): Option<string>
  {
    if q.amount == 49900 then Some("order_A") else None
  }

  /** A signer under which `good` is the signature of `order_A|pay_B`. */
  function ScenarioSign(key: string, message: string): string
  {
    if message == "order_A|pay_B" then "good" else "bad"
  }

  /** A stand-in for `slugify`; the scenario's project already has a slug. */
  function ScenarioSlugify(title: string): string
  {
    "smart-attendance"
  }

  /** The ledger after the checkout: one pending order for `order_A`. */
  function ScenarioAfterCheckout(): Ledger
    requires OrderIds.IsUuidHex(ScenarioUuid)
  {
    ScenarioLedger().(orders := [Order(OrderIds.NewOrderId(ScenarioUuid), 7, 1, 49900, Pending, "order_A", "", "")])
  }

  /** The first half of the example: the gateway is asked for 49900 paise and
      one pending order for `order_A` is stored. */
  lemma ScenarioCheckout()
    ensures OrderIds.IsUuidHex(ScenarioUuid)
    ensures var created := CreateOrder(ScenarioLedger(), 7, 1, ScenarioGateway, ScenarioUuid);
      && created.result.Success?
      && created.result.value.amount == 49900
      && created.ledger == ScenarioAfterCheckout()
  {
    assert OrderIds.IsUuidHex(ScenarioUuid);
    assert !HasPurchased(ScenarioLedger(), 7, 1);
  }

  /** The second half: the signed callback completes the order and moves the
      project's counter from 0 to 1. */
  lemma ScenarioPayment()
    ensures OrderIds.IsUuidHex(ScenarioUuid)
    ensures Valid(ScenarioAfterCheckout())
    ensures var paid := VerifyPayment(ScenarioAfterCheckout(), "secret", Callback("order_A", "pay_B", "good"), ScenarioSign, ScenarioSlugify);
      && paid.result.Success?
      && paid.ledger.orders[0].status == Completed
      && paid.ledger.projects[1].downloads == 1
  {
    assert OrderIds.IsUuidHex(ScenarioUuid);
    var l := ScenarioAfterCheckout();
    assert Valid(l);
    var data := Callback("order_A", "pay_B", "good");
    assert SignedMessage(data) == "order_A|pay_B";
    VerifyPaymentCompletes(l, "secret", data, ScenarioSign, ScenarioSlugify, 0);
  }

  /** The end-to-end example: a project priced 49900 paise (499.00 rupees) is
      quoted to the gateway for 49900 paise; verifying the payment completes the order and
      bumps the counter from 0 to 1. */
  lemma CheckoutScenario()
    ensures OrderIds.IsUuidHex(ScenarioUuid)
    ensures var created := CreateOrder(ScenarioLedger(), 7, 1, ScenarioGateway, ScenarioUuid);
      && created.result.Success?
      && created.result.value.amount == 49900
      && Valid(created.ledger)
      && var paid := VerifyPayment(created.ledger, "secret", Callback("order_A", "pay_B", "good"), ScenarioSign, ScenarioSlugify);
         && paid.result.Success?
         && paid.ledger.orders[0].status == Completed
         && paid.ledger.projects[1].downloads == 1
  {
    ScenarioCheckout();
    ScenarioPayment();
  }
}

=== FILE: results.dfy ===
/** The outcome of a request that may fail with one of the source's error conditions. */
module Results {

  datatype Result<+T, +E> = Success(value: T) | Failure(error: E)

  datatype Option<+T> = None | Some(value: T)
}

=== FILE: runs.dfy ===
/**
 Sequences of purchase-flow requests. Each request is handled as one
 sequential step on the ledger; across any run the database constraints and
 the log invariants hold, the logs only grow, orders keep the terms they were
 created with, and a completed order stays completed.
 */
module Runs {
  import opened Results
  import opened Models
  import opened Views
  import OrderIds

  /** One request of the purchase flow, with the oracles it consults. */
  datatype Request =
    | CreateOrderRequest(user: UserId, project: ProjectId, gateway: GatewayRequest -> Option<string>, uuidHex: string)
    | VerifyPaymentRequest(secret: string, data: Callback, sign: (string, string) -> string, slugify: string -> string)
    | DownloadRequest(user: UserId, orderId: string)

  /** The random input of an order creation is what `uuid4().hex` returns. */
  predicate Admissible(q: Request)
  {
    q.CreateOrderRequest? ==> OrderIds.IsUuidHex(q.uuidHex)
  }

  /** Ledger `b` can follow ledger `a`: the order table and both logs only
      grow, stored orders keep their terms and never leave `completed`, and
      the catalog changes only by raising download counters and by giving a
      project stored with an empty slug a slug. */
  predicate Extends(a: Ledger, b: Ledger)
  {
    && |a.orders| <= |b.orders|
    && (forall i :: 0 <= i < |a.orders| ==> SameTerms(b.orders[i], a.orders[i]))
    && (forall i :: 0 <= i < |a.orders| && a.orders[i].status == Completed ==> b.orders[i].status == Completed)
    && a.transactions <= b.transactions
    && a.downloads <= b.downloads
    && CatalogAdvances(a.projects, b.projects)
  }

  /** The ledger after one request. */
  function Step(l: Ledger, q: Request): (l': Ledger)
    requires Valid(l) && Admissible(q)
    ensures Valid(l')
    ensures Consistent(l) ==> Consistent(l')
    ensures Extends(l, l')
  {
    match q
    case CreateOrderRequest(user, project, gateway, uuidHex) =>
      CreateOrderExtends(l, user, project, gateway, uuidHex);
      CreateOrder(l, user, project, gateway, uuidHex).ledger
    case VerifyPaymentRequest(secret, data, sign, slugify) =>
      VerifyPaymentExtends(l, secret, data, sign, slugify);
      VerifyPayment(l, secret, data, sign, slugify).ledger
    case DownloadRequest(user, orderId) =>
      DownloadExtends(l, user, orderId);
      DownloadProject(l, user, orderId).ledger
  }

  lemma CreateOrderExtends(l: Ledger, user: UserId, pid: ProjectId,
                           gateway: GatewayRequest -> Option<string>, uuidHex: string)
    requires OrderIds.IsUuidHex(uuidHex)
    ensures Extends(l, CreateOrder(l, user, pid, gateway, uuidHex).ledger)
  {
    var r := CreateOrder(l, user, pid, gateway, uuidHex);
    if r.result.Success? {
      assert r.ledger.orders[..|l.orders|] == l.orders;
    }
  }

  lemma VerifyPaymentExtends(l: Ledger, secret: string, data: Callback, sign: (string, string) -> string, slugify: string -> string)
    requires Valid(l)
    ensures Extends(l, VerifyPayment(l, secret, data, sign, slugify).ledger)
  {
  }

  lemma DownloadExtends(l: Ledger, user: UserId, orderId: string)
    ensures Extends(l, DownloadProject(l, user, orderId).ledger)
  {
  }

  /** The ledger after handling `qs` one after another. */
  function Run(l: Ledger, qs: seq<Request>): Ledger
    requires Valid(l)
    requires forall n :: 0 <= n < |qs| ==> Admissible(qs[n])
    decreases |qs|
  {
    if qs == [] then l else Run(Step(l, qs[0]), qs[1..])
  }

  lemma ExtendsTransitive(a: Ledger, b: Ledger, c: Ledger)
    requires Extends(a, b) && Extends(b, c)
    ensures Extends(a, c)
  {
  }

  /** Every run keeps the database constraints and the log invariants, and
      ends in a ledger that extends the one it started from. */
  lemma {:induction false} RunPreservesLedger(l: Ledger, qs: seq<Request>)
    requires Valid(l) && Consistent(l)
    requires forall n :: 0 <= n < |qs| ==> Admissible(qs[n])
    ensures Valid(Run(l, qs))
    ensures Consistent(Run(l, qs))
    ensures Extends(l, Run(l, qs))
    decreases |qs|
  {
    if qs != [] {
      var next := Step(l, qs[0]);
      RunPreservesLedger(next, qs[1..]);
      ExtendsTransitive(l, next, Run(next, qs[1..]));
    }
  }
}

=== FILE: slugs.dfy ===
/**
 Slug assignment of `Project.save` (core/models.py).

 A project saved with an empty slug gets `slugify(title)` when no project in
 the catalog holds that slug yet; otherwise the save tries `base-1`, `base-2`,
 ... and takes the first candidate nobody holds. `slugify` itself is not
 modelled: callers pass its result as `base`.
 */
module Slugs {

  /** The character of a decimal digit. */
  function DigitChar(d: nat): char
    requires d < 10
  {
    ('0' as int + d) as char
  }

  /** The value of a decimal digit character (0 for any other character). */
  function DigitValue(c: char): nat
  {
    if '0' <= c <= '9' then c as int - '0' as int else 0
  }

  /** Python's `str(n)` for a natural number: decimal digits, most significant first. */
  function Decimal(n: nat): (s: string)
    ensures 1 <= |s|
    ensures forall i :: 0 <= i < |s| ==> '0' <= s[i] <= '9'
    ensures s[0] == '0' ==> n == 0
  {
    if n < 10 then [DigitChar(n)] else Decimal(n / 10) + [DigitChar(n % 10)]
  }

  /** Reads a string of decimal digits back as a number. */
  function ParseDecimal(s: string): nat
  {
    if s == [] then 0 else 10 * ParseDecimal(s[..|s| - 1]) + DigitValue(s[|s| - 1])
  }

  /** Reading back the decimal rendering of `n` gives `n`. */
  lemma {:induction false} ParseDecimalOfDecimal(n: nat)
    ensures ParseDecimal(Decimal(n)) == n
  {
    if n >= 10 {
      var s := Decimal(n);
      assert s[..|s| - 1] == Decimal(n / 10);
      ParseDecimalOfDecimal(n / 10);
    }
  }

  /** Different counters render differently. */
  lemma DecimalInjective(m: nat, n: nat)
    requires Decimal(m) == Decimal(n)
    ensures m == n
  {
    ParseDecimalOfDecimal(m);
    ParseDecimalOfDecimal(n);
  }

  /** The candidate `f"{base}-{k}"` the save tries on its k-th collision. */
  function Suffixed(base: string, k: nat): string
  {
    base + "-" + Decimal(k)
  }

  /** Different counters give different candidates, and no candidate is the base itself. */
  lemma SuffixedInjective(base: string, j: nat, k: nat)
    ensures Suffixed(base, j) == Suffixed(base, k) <==> j == k
    ensures Suffixed(base, k) != base
  {
    if Suffixed(base, j) == Suffixed(base, k) {
      assert Decimal(j) == Suffixed(base, j)[|base| + 1..];
      assert Decimal(k) == Suffixed(base, k)[|base| + 1..];
      DecimalInjective(j, k);
    }
  }

  /** Every slug the save has tried before candidate `k`, and found taken,
      was `base` or one of `base-1` ... `base-(k-1)`. */
  predicate ProbedTaken(base: string, k: nat, taken: set<string>)
  {
    base in taken && forall j :: 1 <= j < k ==> Suffixed(base, j) in taken
  }

  /** The slugs tried before candidate `k`: `base`, `base-1`, ..., `base-(k-1)`. */
  function Probed(base: string, k: nat): set<string>
    requires 1 <= k
  {
    if k == 1 then {base} else Probed(base, k - 1) + {Suffixed(base, k - 1)}
  }

  lemma {:induction false} ProbedMembers(base: string, k: nat, s: string)
    requires 1 <= k
    ensures s in Probed(base, k) <==> s == base || exists j :: 1 <= j < k && s == Suffixed(base, j)
  {
    if k > 1 {
      ProbedMembers(base, k - 1, s);
    }
  }

  /** The tried slugs are pairwise different, so there are exactly `k` of them. */
  lemma {:induction false} ProbedSize(base: string, k: nat)
    requires 1 <= k
    ensures |Probed(base, k)| == k
  {
    if k > 1 {
      ProbedSize(base, k - 1);
      var last := Suffixed(base, k - 1);
      if last in Probed(base, k - 1) {
        ProbedMembers(base, k - 1, last);
        SuffixedInjective(base, k - 1, k - 1);
        var j :| 1 <= j < k - 1 && last == Suffixed(base, j);
        SuffixedInjective(base, j, k - 1);
        assert false;
      }
    }
  }

  lemma SubsetSize<T>(a: set<T>, b: set<T>)
    requires a <= b
    ensures |a| <= |b|
  {
    assert b == a + (b - a);
  }

  /** Pigeonhole: while `k` different slugs are known to be taken, `k` is at most
      the number of taken slugs. This bounds the save's search. */
  lemma ProbedBound(base: string, k: nat, taken: set<string>)
    requires 1 <= k
    requires ProbedTaken(base, k, taken)
    ensures k <= |taken|
  {
    forall s | s in Probed(base, k)
      ensures s in taken
    {
      ProbedMembers(base, k, s);
    }
    ProbedSize(base, k);
    SubsetSize(Probed(base, k), taken);
  }

  /** The smallest counter `r >= k` whose candidate is free, given that the base
      and every candidate below `k` are taken. */
  function FirstFreeSuffix(base: string, taken: set<string>, k: nat): (r: nat)
    requires 1 <= k
    requires ProbedTaken(base, k, taken)
    ensures k <= r <= |taken|
    ensures Suffixed(base, r) !in taken
    ensures ProbedTaken(base, r, taken)
    decreases |taken| - k
  {
    ProbedBound(base, k, taken);
    if Suffixed(base, k) !in taken then k
    else
      assert ProbedTaken(base, k + 1, taken);
      ProbedBound(base, k + 1, taken);
      FirstFreeSuffix(base, taken, k + 1)
  }

  /** At most one counter is "free, with every smaller candidate taken". */
  lemma LeastFreeUnique(base: string, taken: set<string>, a: nat, b: nat)
    requires Suffixed(base, a) !in taken && ProbedTaken(base, a, taken)
    requires Suffixed(base, b) !in taken && ProbedTaken(base, b, taken)
    requires 1 <= a && 1 <= b
    ensures a == b
  {
  }

  /** The slug `Project.save` stores, given the current slug, `slugify(title)`
      and the slugs already present in the catalog. */
  function AssignSlug(current: string, base: string, taken: set<string>): (slug: string)
    ensures current != "" ==> slug == current
    ensures current == "" ==> slug !in taken
    ensures current == "" && base !in taken ==> slug == base
    ensures current == "" && base in taken ==>
      exists k :: 1 <= k <= |taken| && slug == Suffixed(base, k) && ProbedTaken(base, k, taken)
  {
    if current != "" then current
    else if base !in taken then base
    else Suffixed(base, FirstFreeSuffix(base, taken, 1))
  }

  /** The save's `while ... exists()` loop as written, with its counter. It
      yields the slug `AssignSlug` describes, and the counter never exceeds
      the number of taken slugs plus one. */
  method DisambiguateSlug(base: string, taken: set<string>) returns (slug: string, counter: nat)
    ensures slug == AssignSlug("", base, taken)
    ensures 1 <= counter <= |taken| + 1
    ensures slug == base <==> counter == 1
  {
    slug := base;
    counter := 1;
    while slug in taken
      invariant 1 <= counter <= |taken| + 1
      invariant slug == if counter == 1 then base else Suffixed(base, counter - 1)
      invariant counter > 1 ==> ProbedTaken(base, counter - 1, taken) && base in taken
      decreases |taken| + 1 - counter
    {
      assert ProbedTaken(base, counter, taken);
      ProbedBound(base, counter, taken);
      slug := Suffixed(base, counter);
      counter := counter + 1;
    }
    if counter > 1 {
      SuffixedInjective(base, counter - 1, counter - 1);
      var r := FirstFreeSuffix(base, taken, 1);
      LeastFreeUnique(base, taken, r, counter - 1);
    }
  }
}

=== FILE: views.dfy ===
/**
 The three purchase-flow requests of core/views.py as pure transitions on the
 ledger: `create_order`, `verify_payment` and `download_project`, plus the
 "has a completed order" query behind `project_detail_view` and
 `dashboard_view`.

 Each request yields a result and the ledger after it. The payment gateway,
 the HMAC-SHA256 signer and `slugify` are opaque functions passed in; the
 random uuid behind a new order identifier is an input.
 */
module Views {
  import opened Results
  import opened Models
  import OrderIds

  /** The currency of every gateway order and every logged payment. */
  const Currency: string := "INR"

  /** The `payment_capture` flag sent with every gateway order. */
  const AutoCapture: nat := 1

  /** The status written into every logged payment. */
  const PaymentSucceeded: string := "success"

  /** The ways a request fails; the comment gives the response the view sends. */
  datatype Error =
    | ProjectNotFound       // create_order: no active project with that id (404)
    | AlreadyPurchased      // create_order: the requester holds a completed order for it (400)
    | GatewayError          // create_order: the gateway did not create an order (500)
    | DuplicateOrderId      // create_order: the generated order_id is already stored (500)
    | SignatureMismatch     // verify_payment: the signature does not check out (400)
    | OrderNotFound         // verify_payment: no order carries that gateway order id (404)
    | MultipleOrders        // a `get` that matched more than one order (500)
    | DuplicateTransaction  // verify_payment: the payment id is already logged (500)
    | NotEntitled           // download_project: no completed order of the requester with that id (404)

  /** What `create_order` asks the gateway for. */
  datatype GatewayRequest = GatewayRequest(amount: nat, currency: string, paymentCapture: nat)

  /** The JSON `create_order` hands to the client-side checkout. */
  datatype Checkout = Checkout(razorpayOrderId: string, amount: nat, currency: string, name: string, orderId: string)

  /** The fields of the gateway callback `verify_payment` reads. */
  datatype Callback = Callback(razorpayOrderId: string, razorpayPaymentId: string, razorpaySignature: string)

  /** A request's result together with the ledger it leaves behind. */
  datatype Outcome<T> = Outcome(result: Result<T, Error>, ledger: Ledger)

  /** Verification never touches what an order was created with: its
      identifier, owner, project, amount and gateway order id. */
  predicate SameTerms(a: Order, b: Order)
  {
    && a.orderId == b.orderId
    && a.user == b.user
    && a.project == b.project
    && a.amount == b.amount
    && a.razorpayOrderId == b.razorpayOrderId
  }

  /** Order `o` is a completed purchase of `project` by `user`. */
  predicate IsPurchase(o: Order, user: UserId, project: ProjectId)
  {
    o.user == user && o.project == project && o.status == Completed
  }

  /** `Order.objects.filter(user=..., project=..., status='completed').exists()`. */
  predicate HasPurchased(l: Ledger, user: UserId, project: ProjectId)
  {
    exists i :: 0 <= i < |l.orders| && IsPurchase(l.orders[i], user, project)
  }

  /** Order `o` lets `user` download under identifier `orderId`. */
  predicate Entitles(o: Order, user: UserId, orderId: string)
  {
    o.orderId == orderId && o.user == user && o.status == Completed
  }

  predicate Entitled(l: Ledger, user: UserId, orderId: string)
  {
    exists i :: 0 <= i < |l.orders| && Entitles(l.orders[i], user, orderId)
  }

  predicate OrderIdTaken(orders: seq<Order>, id: string)
  {
    exists i :: 0 <= i < |orders| && orders[i].orderId == id
  }

  predicate RemoteIdKnown(orders: seq<Order>, razorpayOrderId: string)
  {
    exists i :: 0 <= i < |orders| && orders[i].razorpayOrderId == razorpayOrderId
  }

  /** The filter `razorpay_order_id=...` of `verify_payment`'s lookup. */
  function WithRemoteId(razorpayOrderId: string): Order -> bool
  {
    (o: Order) => o.razorpayOrderId == razorpayOrderId
  }

  /** The filter `order_id=..., user=..., status='completed'` of `download_project`. */
  function EntitlingTo(user: UserId, orderId: string): Order -> bool
  {
    (o: Order) => Entitles(o, user, orderId)
  }

  /** What the gateway is asked to charge for a project: its price in paise. */
  function Quote(p: Project): GatewayRequest
  {
    GatewayRequest(p.price, Currency, AutoCapture)
  }

  /** The signed message `f"{razorpay_order_id}|{razorpay_payment_id}"`. */
  function SignedMessage(data: Callback): string
  {
    data.razorpayOrderId + "|" + data.razorpayPaymentId
  }

  /** The signature check, with `sign` standing for hex(HMAC-SHA256(secret, message)). */
  predicate SignatureValid(secret: string, data: Callback, sign: (string, string) -> string)
  {
    sign(secret, SignedMessage(data)) == data.razorpaySignature
  }

  /** `create_order`: a pending order for an active project the requester has
      not yet bought, backed by a gateway order for the project's price. A
      failure at any step leaves the ledger as it was. */
  function CreateOrder(l: Ledger, user: UserId, pid: ProjectId,
                       gateway: GatewayRequest -> Option<string>, uuidHex: string): (r: Outcome<Checkout>)
    requires OrderIds.IsUuidHex(uuidHex)
    ensures r.result.Failure? ==> r.ledger == l
    ensures pid !in l.projects || !l.projects[pid].active ==> r.result == Failure(ProjectNotFound)
    ensures pid in l.projects && l.projects[pid].active && HasPurchased(l, user, pid) ==>
      r.result == Failure(AlreadyPurchased)
    ensures pid in l.projects && l.projects[pid].active && !HasPurchased(l, user, pid)
            && gateway(Quote(l.projects[pid])).None? ==>
      r.result == Failure(GatewayError)
    ensures pid in l.projects && l.projects[pid].active && !HasPurchased(l, user, pid)
            && gateway(Quote(l.projects[pid])).Some?
            && !OrderIdTaken(l.orders, OrderIds.NewOrderId(uuidHex)) ==>
      r.result.Success?
    ensures pid in l.projects && l.projects[pid].active && !HasPurchased(l, user, pid)
            && gateway(Quote(l.projects[pid])).Some?
            && OrderIdTaken(l.orders, OrderIds.NewOrderId(uuidHex)) ==>
      r.result == Failure(DuplicateOrderId)
    ensures r.result.Success? ==> r.result.value.orderId == OrderIds.NewOrderId(uuidHex)
    ensures r.result.Success? ==>
      && pid in l.projects
      && var p := l.projects[pid];
         var remote := gateway(Quote(p));
         var id := r.result.value.orderId;
         && remote.Some?
         && OrderIds.WellFormed(id)
         && !OrderIdTaken(l.orders, id)
         && r.result.value == Checkout(remote.value, p.price, Currency, p.title, id)
         && r.ledger == l.(orders := l.orders + [Order(id, user, pid, p.price, Pending, remote.value, "", "")])
    ensures Valid(l) ==> Valid(r.ledger)
    ensures Consistent(l) ==> Consistent(r.ledger)
  {
    if pid !in l.projects || !l.projects[pid].active then
      Outcome(Failure(ProjectNotFound), l)
    else if HasPurchased(l, user, pid) then
      Outcome(Failure(AlreadyPurchased), l)
    else
      var p := l.projects[pid];
      match gateway(Quote(p))
      case None => Outcome(Failure(GatewayError), l)
      case Some(remoteId) =>
        var order := SaveOrder(NewOrder(user, pid, p.price, remoteId), uuidHex);
        if OrderIdTaken(l.orders, order.orderId) then
          Outcome(Failure(DuplicateOrderId), l)
        else
          Outcome(Success(Checkout(remoteId, p.price, Currency, p.title, order.orderId)),
                  l.(orders := l.orders + [order]))
  }

  /** The order fields a verified callback overwrites. */
  function Paid(o: Order, data: Callback): Order
  {
    o.(razorpayPaymentId := data.razorpayPaymentId, razorpaySignature := data.razorpaySignature, status := Completed)
  }

  /** The writes of a verified payment on order row `i`, in source order: the
      order is overwritten as paid and completed with no check of its status;
      then the payment is logged, which the unique constraint on transaction
      ids refuses for a payment id already logged, leaving the order write in
      place; then the project's download counter goes up by one. */
  function RecordPayment(l: Ledger, i: nat, data: Callback, slugify: string -> string): (r: Outcome<string>)
    requires Valid(l)
    requires i < |l.orders|
    ensures |r.ledger.orders| == |l.orders|
    ensures r.ledger.orders == l.orders[i := r.ledger.orders[i]]
    ensures r.ledger.orders[i].status == Completed
    ensures r.ledger.orders[i].razorpayPaymentId == data.razorpayPaymentId
    ensures r.ledger.orders[i].razorpaySignature == data.razorpaySignature
    ensures SameTerms(r.ledger.orders[i], l.orders[i])
    ensures r.result.Failure? <==> Logged(l.transactions, data.razorpayPaymentId)
    ensures r.result.Failure? ==>
      r.result.error == DuplicateTransaction && r.ledger.transactions == l.transactions && r.ledger.projects == l.projects
    ensures r.result.Success? ==>
      && r.result.value == l.orders[i].orderId
      && |r.ledger.transactions| == |l.transactions| + 1
      && r.ledger.transactions[|l.transactions|].transactionId == data.razorpayPaymentId
      && r.ledger.projects == SaveCounter(l.projects, l.orders[i].project, slugify)
    ensures r.ledger.downloads == l.downloads
    ensures l.transactions <= r.ledger.transactions
    ensures CatalogAdvances(l.projects, r.ledger.projects)
    ensures Valid(r.ledger)
    ensures Consistent(l) ==> Consistent(r.ledger)
  {
    var order := l.orders[i];
    var written := l.(orders := l.orders[i := Paid(order, data)]);
    WriteOrderKeeps(l, i, Paid(order, data));
    if Logged(l.transactions, data.razorpayPaymentId) then
      Outcome(Failure(DuplicateTransaction), written)
    else
      var entry := Transaction(data.razorpayPaymentId, i, order.amount, Currency, "", PaymentSucceeded);
      var logged := written.(transactions := l.transactions + [entry]);
      AppendTransactionKeeps(written, entry);
      BumpCounterKeeps(logged, order.project, slugify);
      Outcome(Success(order.orderId), logged.(projects := SaveCounter(l.projects, order.project, slugify)))
  }

  /** `verify_payment`: the signature check, then the lookup of the order by
      its gateway order id, then the writes of `RecordPayment`. A failed check
      or lookup changes nothing. */
  function VerifyPayment(l: Ledger, secret: string, data: Callback, sign: (string, string) -> string,
                         slugify: string -> string): (r: Outcome<string>)
    requires Valid(l)
    ensures !SignatureValid(secret, data, sign) ==> r == Outcome(Failure(SignatureMismatch), l)
    ensures r.result == Failure(OrderNotFound) <==>
      SignatureValid(secret, data, sign) && !RemoteIdKnown(l.orders, data.razorpayOrderId)
    ensures r.result.Failure? && r.result.error != DuplicateTransaction ==> r.ledger == l
    ensures r.result.Failure? ==> r.ledger.transactions == l.transactions && r.ledger.projects == l.projects
    ensures r.result.Success? ==> |r.ledger.transactions| == |l.transactions| + 1
    ensures r.ledger.downloads == l.downloads
    ensures |r.ledger.orders| == |l.orders|
    ensures forall i :: 0 <= i < |l.orders| ==> SameTerms(r.ledger.orders[i], l.orders[i])
    ensures forall i :: 0 <= i < |l.orders| && l.orders[i].status == Completed ==> r.ledger.orders[i].status == Completed
    ensures l.transactions <= r.ledger.transactions
    ensures CatalogAdvances(l.projects, r.ledger.projects)
    ensures Valid(r.ledger)
    ensures Consistent(l) ==> Consistent(r.ledger)
  {
    if !SignatureValid(secret, data, sign) then
      Outcome(Failure(SignatureMismatch), l)
    else
      var hits := Filter(l.orders, WithRemoteId(data.razorpayOrderId));
      if |hits| == 0 then
        Outcome(Failure(OrderNotFound), l)
      else if |hits| > 1 then
        assert l.orders[hits[0]].razorpayOrderId == data.razorpayOrderId;
        Outcome(Failure(MultipleOrders), l)
      else
        RecordPayment(l, hits[0], data, slugify)
  }

  /** `download_project`: the requester's completed order with that identifier
      is looked up; on success one download record is appended and the
      order's project is served. Any other case changes nothing. */
  function DownloadProject(l: Ledger, user: UserId, orderId: string): (r: Outcome<ProjectId>)
    ensures r.result.Failure? ==> r.ledger == l
    ensures !Entitled(l, user, orderId) ==> r.result == Failure(NotEntitled)
    ensures Valid(l) && Entitled(l, user, orderId) ==> r.result.Success?
    ensures r.result.Success? ==>
      exists i :: 0 <= i < |l.orders| && Entitles(l.orders[i], user, orderId)
        && r.result.value == l.orders[i].project
        && r.ledger == l.(downloads := l.downloads + [Download(user, l.orders[i].project, i)])
    ensures Valid(l) ==> Valid(r.ledger)
    ensures Consistent(l) ==> Consistent(r.ledger)
  {
    var hits := Filter(l.orders, EntitlingTo(user, orderId));
    if |hits| == 0 then
      Outcome(Failure(NotEntitled), l)
    else if |hits| > 1 then
      // Two rows with one identifier: the unique constraint rules this out.
      assert hits[0] < hits[1] && l.orders[hits[0]].orderId == l.orders[hits[1]].orderId;
      Outcome(Failure(MultipleOrders), l)
    else
      var i := hits[0];
      var project := l.orders[i].project;
      AppendDownloadKeeps(l, Download(user, project, i));
      Outcome(Success(project), l.(downloads := l.downloads + [Download(user, project, i)]))
  }

  /** `dashboard_view`: the rows of the requester's completed orders. */
  function Dashboard(l: Ledger, user: UserId): (rows: seq<nat>)
    ensures forall i :: 0 <= i < |l.orders| ==>
      (i in rows <==> l.orders[i].user == user && l.orders[i].status == Completed)
    ensures forall n :: 0 <= n < |rows| ==> rows[n] < |l.orders|
    ensures forall m, n :: 0 <= m < n < |rows| ==> rows[m] < rows[n]
  {
    Filter(l.orders, (o: Order) => o.user == user && o.status == Completed)
  }
}
